=== FILE: README.md ===
# Smart door lock: pairing and allow-list rules in Dafny

This project models the decision and encoding rules of a BLE door lock's
firmware, which runs on Zephyr. The rules sit beneath the kernel and
Bluetooth plumbing:

- **Keypad handler** (`Keypad`). A button event's `key_id` holds a row in
  bits 0-6 and a column in bits 7-13. The pair selects a character from the
  4×3 keypad table. `'#'` gives the submit gate (a semaphore). Every other
  key, `'*'` included, goes into the digit queue. Releases are ignored, and
  the handler never reports an event as consumed.
- **Passkey collector** (`Passkey`). The passkey-entry handler takes six
  items from the digit queue in FIFO order. It folds them into
  Σ (c_i − 48)·10^(5−i) and submits that value once. Any later items stay
  in the queue. `PinEntry` joins the keypad to the collector: typing the
  `%06u` rendering of a passkey submits exactly that passkey.
- **Pairing policy** (`Pairing`). The policy refuses a peer that declares
  NoInputNoOutput and accepts every other IO capability. It is proved
  against the IO-capability association table of the Bluetooth Core
  Specification (Vol 3, Part H, section 2.3.5.1). The policy refuses exactly
  the peers that force Just Works.
- **Accept-list rebuild and advertising** (`AcceptList`, `Advertising`).
  - The filter accept list is cleared, then each bond is added in turn.
  - A counter counts the successful adds. It holds a sticky error: the
    first failure sets it to −EIO, and nothing is attempted after that.
  - The final count picks the outcome: a negative count starts no
    advertising, zero starts open advertising, and a positive count starts
    advertising with `FILTER_CONN`.
  - The model covers both firmware builds, the application image and the
    smart_lock image. They differ only in their parameters and payload
    split.
  - It also covers the smart_lock build's ms → 0.625 ms unit conversion.
- **Lock service write** (`LockService`). The handler checks length, then
  offset, then value. It replies with the first failing check's ATT error
  (Core Specification Vol 3, Part F, section 3.4.1.1), or with the written
  length.

Kernel objects and stack calls become plain inputs:

- the digit queue is a `seq` of key codes;
- the semaphore is a count of gives;
- `bt_le_filter_accept_list_clear` and `bt_le_adv_start` are error codes
  supplied by the caller;
- the result of `bt_le_filter_accept_list_add` for each bond is supplied
  with that bond.

The passkey fold uses an integer power where the C code uses `pow()`.

Firmware behaviour worth noting:

- **Failed add.** After a failed add, the firmware starts no advertising
  at all. It does not fall back to open advertising.
- **Smart_lock intervals.** The smart_lock build passes its minimum
  interval as both minimum and maximum, leaving its defined maximum
  unused.
- **Non-digit keys.** The collector accepts any key that reaches the queue.
  That includes `'*'`, which adds a negative term.
  `Passkey.StarFirstLeavesUnsignedRange` and
  `Passkey.StarCollidesWithDigitEntry` record this.
- **Full queue.** Producers block on a full queue (`K_FOREVER`), and the
  firmware reports no queue-full diagnostic.

## Model

| member | source | states |
|---|---|---|
| `Passkey.AccumulateIsShiftedDecimal` | application/src/main.c:176-188 | after k of the six loop iterations, the running value is the numeral spelled by the first k keys, shifted by the 6 − k positions still to come |
| `Passkey.Passkey` | smart_lock/src/security.c:46-58 | the six-key fold Σ (c_i − 48)·10^(5−i) equals the decimal numeral of the keys, most significant first; for digit keys it lies in 0..999999 |
| `Passkey.StarFirstLeavesUnsignedRange` | application/src/main.c:176-182 | non-digits are not rejected: with a `'*'` first, the first term is negative, so the running value leaves `uint32_t`'s range at the first iteration, where the C conversion is undefined; with the later keys up to `'9'`, the intended integer sum stays negative too |
| `Passkey.StarCollidesWithDigitEntry` | smart_lock/src/security.c:52 | a `'*'` later in the entry is silently absorbed: "1*0000" gives the same passkey, 40000, as "040000" |
| `Passkey.Render` | application/src/main.c:160 | for a passkey with at most `width` digits, the `%06u` rendering is `width` zero-padded digit characters that read back as the passkey |
| `Passkey.PasskeyRenderRoundTrip` | application/src/main.c:156-161 | the displayed six-digit form and the entered passkey are inverse: folding the rendering of p gives p, and rendering the fold of six digits gives those digits back |
| `Passkey.PasskeyEntry` | application/src/main.c:170-198 | a submission happens if and only if six keys are available; the value is the numeral of the first six keys, everything after them stays queued, and with fewer keys nothing is submitted |
| `Passkey.AuthPasskeyEntry` | smart_lock/src/security.c:40-68 | the C loop, one dequeue per iteration and at most six iterations, then a single submission, produces the same outcome as `PasskeyEntry` |
| `Passkey.LaterKeysDoNotAffectPasskey` | application/src/main.c:178-192 | a seventh key after the sixth does not change the submitted passkey and is left for the next attempt |
| `Passkey.PasskeyExamples` | application/src/main.c:182 | "123456" gives 123456, "000000" gives 0 and "999999" gives 999999 |
| `Keypad.DecodeKeyId` | application/src/keypad.c:46-47 | the row mask and the column mask-and-shift are `key_id mod 128` and `(key_id div 128) mod 128`; both fields are below 128 |
| `Keypad.EncodeKeyId` | application/src/keypad.c:46-47 | packing a row and a column gives `column·128 + row`, a key id below 0x4000 |
| `Keypad.DecodeEncode` | application/src/keypad.c:46-47 | decoding a packed key id returns the packed row and column |
| `Keypad.HighBitsIgnored` | application/src/keypad.c:46-47 | bits 14 and above never change the decoded position, and re-packing a decoded key id loses only those bits |
| `Keypad.KeyChar` | application/src/keypad.c:22-28 | rows 0-2 map to `'1' + 3·row + column`, and row 3 maps to `'*'`, `'0'`, `'#'` |
| `Keypad.PositionOfShowsChar` | application/src/keypad.c:22-28 | exactly the twelve characters "0123456789*#" appear in the table, each at a position that shows it |
| `Keypad.PositionOfKeyChar` | application/src/keypad.c:22-28 | each table position is recovered from its character, so the table is a bijection |
| `Keypad.HandleButtonEvent` | application/src/keypad.c:39-73 | a press goes exactly one way: `'#'` gives the gate, and any other key, `'*'` included, is appended to the queue; `'#'` is never enqueued; a release changes nothing; the event is never reported as consumed |
| `Keypad.HandleEventsRoutesTypedChars` | application/src/keypad.c:55-62 | over any event stream, the queue receives the typed characters other than `'#'` in typing order, and the gate is given once per typed `'#'` |
| `PinEntry.TypedDigitsAreQueued` | application/src/keypad.c:53-61 | pressing the keys for a digit string on an idle keypad leaves exactly that string in the queue |
| `PinEntry.TypedPasskeyIsSubmitted` | application/src/main.c:176-192 | typing the six displayed digits of passkey p makes the collector submit exactly p, with nothing left over |
| `PinEntry.ShortEntryIsNeverSubmitted` | smart_lock/src/security.c:48-62 | when the events queue fewer than six keys, no passkey is submitted, whatever releases or `'#'` presses are mixed in |
| `Pairing.PairingAccept` | smart_lock/src/security.c:75-84 | the verdict is PAIR_NOT_ALLOWED exactly when the declared IO capability is NoInputNoOutput; every other code is accepted |
| `Pairing.VerdictDependsOnlyOnIoCapability` | smart_lock/src/security.c:77 | two feature sets with the same IO capability get the same verdict |
| `Pairing.RejectsExactlyForcedJustWorks` | smart_lock/src/security.c:77-81 | a peer is refused exactly when its capability forces Just Works against every local capability, in both roles and both pairing variants; each accepted defined capability pairs with the lock's keypad-only capability by passkey entry, with either side initiating, in both LE legacy pairing and LE Secure Connections |
| `AcceptList.AcceptListCallback` | application/src/main.c:68-82 | with a negative counter, the callback attempts no add and changes nothing; otherwise it attempts the add, and success increments the counter by one and records the peer, while failure sets the counter to −EIO |
| `AcceptList.StickyError` | smart_lock/src/gap_advertising.c:65-68 | once the counter is negative, the rest of the enumeration attempts nothing and the counter stays as it is |
| `AcceptList.ForeachBondCount` | smart_lock/src/gap_advertising.c:73-81 | from a non-negative counter, the enumeration adds the number of bonds when every add succeeds, and ends at −EIO after any failure, however many adds succeeded before it |
| `AcceptList.ForeachBondEffect` | smart_lock/src/gap_advertising.c:70-81 | the peers added are those before the first failing add; the adds attempted run up to and including that failure, and none come after it |
| `AcceptList.SetupAcceptList` | application/src/main.c:85-95 | a failed clear returns its error with no add attempted; otherwise the result equals the number of bonds if and only if every add succeeds, and any failure makes it exactly −EIO; when all adds succeed, the list holds every bond |
| `Advertising.MsToInterval` | smart_lock/src/gap_advertising.c:13-14 | multiplying by 1.6 and storing the result as an integer gives the largest whole number of 0.625 ms units within the given milliseconds |
| `Advertising.SmartLockIntervals` | smart_lock/src/gap_advertising.c:21-26 | 100 ms converts to 160 units and 110 ms to 176 units |
| `Advertising.ParamsFor` | smart_lock/src/gap_advertising.c:28-47 | the filtered parameter set has `FILTER_CONN` and the open set lacks it; both have CONNECTABLE, ONE_TIME and USE_IDENTITY and nothing else; the intervals lie in the controller's 0x0020..0x4000 range; the application build uses 0xA0..0xF0 (`BT_GAP_ADV_FAST_INT_MIN_2`/`MAX_2`), and the smart_lock build uses 160 for both minimum and maximum, below the 176 it defines |
| `Advertising.ParamSetsDifferOnlyInFilter` | application/src/main.c:27-33 | a build's two parameter sets differ only by `FILTER_CONN` |
| `Advertising.AdvertisingDecision` | smart_lock/src/gap_advertising.c:116-133 | a negative count starts nothing; 0 starts with the build's no-accept-list parameter set and a positive count with its accept-list set, intervals included, so only the latter carries `FILTER_CONN`; every start carries the build's payload, and smart_lock passes no scan-response data |
| `Advertising.AdvertiseWithAcceptList` | application/src/main.c:98-121 | with a successful clear: no bonds gives open advertising; bonds that all add give filtered advertising to exactly those peers; any failed add starts nothing. A negative clear error starts nothing and attempts no add. A positive clear result starts filtered advertising with no add attempted. The lock advertises exactly when a start was requested and succeeded |
| `Advertising.PositiveClearErrorStartsFilteredAdvertising` | smart_lock/src/gap_advertising.c:86-92 | as written, a clear that fails with any positive status (0x0C, say) is taken as a count, with no add attempted: filtered advertising starts although the clear failed and no peer was added in this cycle; the list keeps whatever the failed clear left |
| `Advertising.SetupAcceptListChecked` | smart_lock/src/gap_advertising.c:84-98 | the corrected setup reports every non-zero clear error as a failure; otherwise it enumerates exactly as the as-written setup `AcceptList.SetupAcceptList` does |
| `Advertising.AdvertiseWithAcceptListChecked` | smart_lock/src/gap_advertising.c:111-143 | with the clear checked, any clear or add failure starts nothing, and filtered advertising only follows a list that holds every bonded peer |
| `Advertising.CheckedAgreesUnlessClearErrorPositive` | smart_lock/src/gap_advertising.c:116-119 | the corrected cycle behaves exactly like the as-written cycle `Advertising.AdvertiseWithAcceptList` whenever the clear does not fail with a positive error |
| `LockService.WriteLed` | application/src/lock_svc.c:33-63 | only a one-byte write of 0 or 1 at offset 0 is accepted, and it returns the length 1; otherwise the reply is the ATT error of the first failing check in the order length, offset, value; the service state never changes |
| `LockService.ErrorRepliesDistinct` | application/src/lock_svc.c:41-60 | the three error replies are negative and pairwise distinct, so a reply shows which check failed |

## Left out

- Zephyr kernel objects are not modelled. This covers the message queue
  (its capacity of 10 and blocking with `K_FOREVER`), the semaphore (its
  limit is defined in a file that is not part of this model), and the
  `k_work` item. Queue capacity, the ISR-to-task handoff, and the
  idempotence of pending work are concurrency matters.
- Bluetooth stack calls are reduced to their result codes:
  `bt_le_filter_accept_list_*`, `bt_foreach_bond`, `bt_le_adv_start`,
  `bt_conn_auth_passkey_entry`, `bt_unpair` and `bt_gatt_attr_read`.
- `k_msgq_get`'s return value is only logged. The error of
  `bt_conn_auth_passkey_entry` is only logged and never retried. Neither is
  modelled.
- `auth_passkey_confirm` has an empty body, so there is no behaviour to
  state.
- `auth_cancel`, `auth_passkey_display`, `on_connected`,
  `on_security_changed` and all `LOG_*` calls are logging only.
  `Passkey.Render` models only the `%06u` format.
- `on_disconnected` and the startup code only submit the work item.
- The callback-table wiring in smart_lock/src/security.c:23-30 is
  configuration. It registers NULL for `passkey_entry` and
  `pairing_accept`.
- `main()` is not modelled: its GPIO and interrupt setup, `bt_enable`, and
  the bond-delete polling loop are hardware I/O and a sleep loop.
- `adv_param` in application/src/main.c:60-65 is never used.
- `read_button` delegates to `bt_gatt_attr_read`, which is a stack call.
- application/src/gap_connection.c, smart_lock/src/gatt_dis_svc.c,
  smart_lock/src/gatt_lock_svc.h, the board's buttons_def.h and
  gateway/main/wifi.h are not part of this model. They hold logging, PHY
  and MTU requests, static tables and declarations.
- Passkey.Passkey: computed over unbounded integers. The C code stores the
  running value in a `uint32_t` via a `double`. For digit keys every
  intermediate value fits. The out-of-range conversion that a negative
  (`'*'`) value causes is not modelled.
- Passkey.StarFirstLeavesUnsignedRange: states the value over unbounded
  integers. The conversion of a negative `double` to `uint32_t` is
  undefined in C, so what the firmware then submits is not modelled.
- Passkey.Render: requires the passkey to have at most `width` digits.
  `%06u` prints a wider value in full; such values are outside the
  requires, because a passkey never exceeds 999999.
- Advertising.MsToInterval: computed as `ms·16 div 10` rather than in
  double precision. For every millisecond count of practical size the two
  agree. When `ms` is a multiple of 5, the exact product is an integer N.
  The double nearest 1.6 lies above 1.6, so the rounded product is at
  least N. For any other `ms`, the exact product lies at least 0.2 from an
  integer, far more than the rounding error. So truncation gives
  `ms·16 div 10` in both cases.
- Pairing.RejectsExactlyForcedJustWorks: covers only the IO-capability
  table. It omits the out-of-band and MITM-flag steps that come before the
  table.

## Findings

| source | as written | input that shows it | evidently intended | confidence | as-written member | corrected member |
|---|---|---|---|---|---|---|
| smart_lock/src/gap_advertising.c:86-92 (also application/src/main.c:87-91) | `setup_accept_list` returns the clear error unchanged, and `advertise_with_acceptlist` treats only a negative result as failure | `bt_le_filter_accept_list_clear` returns a positive protocol status such as 0x0C; the stack documents positive values as protocol errors | any failed clear ends the cycle without advertising; as written, filtered advertising starts although the clear failed and no peer was added in this cycle, and the list keeps whatever the failed clear left | low to medium (depends on the stack returning a positive status); not executed | `Advertising.PositiveClearErrorStartsFilteredAdvertising` | `Advertising.AdvertiseWithAcceptListChecked` |

=== FILE: accept_list.dfy ===
/** Rebuilding the controller's filter accept list from the bonded peers.
    The bond enumeration calls a callback once per bond with a shared
    counter: each successful add increments it, the first failed add sets
    it to -EIO, and once negative the callback does nothing more. */
module AcceptList {

  /** `EIO`, the error the callback records for a failed add. */
  const EIO: int := 5

  /** A peer's identity address as stored with its bond. */
  type Addr = seq<int>

  /** One bonded peer together with what `bt_le_filter_accept_list_add`
      returns if it is asked to add that peer (0 for success). */
  datatype BondAdd = BondAdd(addr: Addr, addErr: int)

  /** The counter the callback shares, and the effect on the controller:
      the peers an add was attempted for, and the peers actually added. */
  datatype Rebuild = Rebuild(count: int, attempted: seq<Addr>, programmed: seq<Addr>)

  /** Counter at the start of an enumeration, with nothing attempted yet. */
  const Fresh: Rebuild := Rebuild(0, [], [])

  /** The per-bond callback. A negative counter is a sticky error: the bond
      is skipped without an add. Otherwise the add is attempted; success
      counts it, failure turns the counter into -EIO. */
  function AcceptListCallback(st: Rebuild, bond: BondAdd): (r: Rebuild)
    ensures st.count < 0 ==> r == st
    ensures st.count >= 0 ==> r.attempted == st.attempted + [bond.addr]
    ensures st.count >= 0 && bond.addErr == 0 ==>
              r.count == st.count + 1 && r.programmed == st.programmed + [bond.addr]
    ensures st.count >= 0 && bond.addErr != 0 ==>
              r.count == -EIO && r.programmed == st.programmed
  {
    if st.count < 0 then st
    else if bond.addErr != 0 then Rebuild(-EIO, st.attempted + [bond.addr], st.programmed)
    else Rebuild(st.count + 1, st.attempted + [bond.addr], st.programmed + [bond.addr])
  }

  /** The bond enumeration: the callback applied to every bond in order. */
  function ForeachBond(st: Rebuild, bonds: seq<BondAdd>): Rebuild
    decreases |bonds|
  {
    if |bonds| == 0 then st
    else ForeachBond(AcceptListCallback(st, bonds[0]), bonds[1..])
  }

  function Addrs(bonds: seq<BondAdd>): (addrs: seq<Addr>)
    ensures |addrs| == |bonds|
    ensures forall i :: 0 <= i < |bonds| ==> addrs[i] == bonds[i].addr
  {
    if |bonds| == 0 then [] else [bonds[0].addr] + Addrs(bonds[1..])
  }

  predicate AllAddsSucceed(bonds: seq<BondAdd>) {
    forall i :: 0 <= i < |bonds| ==> bonds[i].addErr == 0
  }

  /** Index of the first bond whose add fails, or |bonds| if none does. */
  function FirstFailure(bonds: seq<BondAdd>): (k: nat)
    ensures k <= |bonds|
    ensures forall i :: 0 <= i < k ==> bonds[i].addErr == 0
    ensures k < |bonds| ==> bonds[k].addErr != 0
  {
    if |bonds| == 0 then 0
    else if bonds[0].addErr != 0 then 0
    else 1 + FirstFailure(bonds[1..])
  }

  /** Once the counter is negative, the rest of the enumeration attempts
      nothing and leaves the counter as it is. */
  lemma {:induction false} StickyError(st: Rebuild, bonds: seq<BondAdd>)
    requires st.count < 0
    ensures ForeachBond(st, bonds) == st
    decreases |bonds|
  {
    if |bonds| > 0 {
      StickyError(st, bonds[1..]);
    }
  }

  /** The counter an enumeration from a non-negative counter ends with:
      grown by the number of bonds if every add succeeds, and -EIO
      otherwise, however many adds succeeded before the failure. */
  lemma {:induction false} ForeachBondCount(st: Rebuild, bonds: seq<BondAdd>)
    requires st.count >= 0
    ensures ForeachBond(st, bonds).count
            == if FirstFailure(bonds) == |bonds| then st.count + |bonds| else -EIO
    decreases |bonds|
  {
    if |bonds| > 0 {
      var st' := AcceptListCallback(st, bonds[0]);
      if bonds[0].addErr != 0 {
        StickyError(st', bonds[1..]);
      } else {
        ForeachBondCount(st', bonds[1..]);
      }
    }
  }

  /** Number of adds an enumeration attempts: up to and including the
      first failing one. */
  function AttemptCount(bonds: seq<BondAdd>): nat {
    var k := FirstFailure(bonds);
    if k == |bonds| then k else k + 1
  }

  /** The addresses of the bonds before the first failing add. */
  function AddedAddrs(bonds: seq<BondAdd>): (addrs: seq<Addr>)
    ensures |addrs| == FirstFailure(bonds)
    ensures forall i :: 0 <= i < |addrs| ==> addrs[i] == bonds[i].addr
  {
    if |bonds| == 0 || bonds[0].addErr != 0 then []
    else [bonds[0].addr] + AddedAddrs(bonds[1..])
  }

  /** The addresses of the bonds up to and including the first failing add. */
  function AttemptedAddrs(bonds: seq<BondAdd>): (addrs: seq<Addr>)
    ensures |addrs| == AttemptCount(bonds)
    ensures forall i :: 0 <= i < |addrs| ==> addrs[i] == bonds[i].addr
  {
    if |bonds| == 0 then []
    else if bonds[0].addErr != 0 then [bonds[0].addr]
    else [bonds[0].addr] + AttemptedAddrs(bonds[1..])
  }

  /** The peers an enumeration from a non-negative counter adds to the
      controller's list, and the peers it asks the controller to add: the
      bonds before the first failing add, and those up to and including it;
      none after it. */
  lemma {:induction false} ForeachBondEffect(st: Rebuild, bonds: seq<BondAdd>)
    requires st.count >= 0
    ensures ForeachBond(st, bonds).programmed == st.programmed + AddedAddrs(bonds)
    ensures ForeachBond(st, bonds).attempted == st.attempted + AttemptedAddrs(bonds)
    decreases |bonds|
  {
    if |bonds| > 0 {
      var st' := AcceptListCallback(st, bonds[0]);
      if bonds[0].addErr != 0 {
        StickyError(st', bonds[1..]);
      } else {
        ForeachBondEffect(st', bonds[1..]);
      }
    }
  }

  /** The accept-list setup as written: clear the list, and on failure
      return the clear error unchanged without enumerating; otherwise
      enumerate from a zero counter and return the counter. */
  function SetupAcceptList(clearErr: int, bonds: seq<BondAdd>): (r: Rebuild)
    ensures clearErr != 0 ==> r == Rebuild(clearErr, [], [])
    ensures clearErr == 0 ==> (r.count == |bonds| <==> AllAddsSucceed(bonds))
    ensures clearErr == 0 ==> (r.count < 0 <==> !AllAddsSucceed(bonds))
    ensures clearErr == 0 && !AllAddsSucceed(bonds) ==> r.count == -EIO
    ensures clearErr == 0 && AllAddsSucceed(bonds) ==> r.programmed == Addrs(bonds)
    ensures clearErr == 0 ==> r.programmed == AddedAddrs(bonds) && r.attempted == AttemptedAddrs(bonds)
  {
    if clearErr != 0 then Rebuild(clearErr, [], [])
    else
      ForeachBondCount(Fresh, bonds);
      ForeachBondEffect(Fresh, bonds);
      ForeachBond(Fresh, bonds)
  }
}

=== FILE: advertising.dfy ===
/** Choosing how to advertise once the accept list has been rebuilt: a
    negative count starts nothing, zero starts open connectable advertising,
    and a positive count starts advertising that only the listed peers may
    connect to. The same logic exists in two builds of the firmware, which
    differ only in their advertising parameters and payload split. */
module Advertising {
  import opened AcceptList

  datatype AdvOption = Connectable | OneTime | UseIdentity | FilterConn

  /** Options and the interval range, in units of 0.625 ms. */
  datatype AdvParam = AdvParam(options: set<AdvOption>, intervalMin: nat, intervalMax: nat)

  datatype AdField = Flags | CompleteName | LockServiceUuid

  /** The two firmware builds: the application image (main.c) and the
      smart_lock image (gap_advertising.c). */
  datatype Build = Application | SmartLock

  /** One call of `bt_le_adv_start`: parameters, advertising data, and
      scan-response data. */
  datatype AdvStart = AdvStart(param: AdvParam, ad: seq<AdField>, sd: seq<AdField>)

  datatype AdvDecision = NoAdvertising | StartAdvertising(call: AdvStart)

  /** Interval bounds of LE Set Advertising Parameters (Bluetooth Core
      Specification Vol 4, Part E, section 7.8.5). */
  const IntervalRangeMin: nat := 0x0020
  const IntervalRangeMax: nat := 0x4000

  /** `BT_GAP_ADV_FAST_INT_MIN_2` and `BT_GAP_ADV_FAST_INT_MAX_2`: 100 ms
      and 150 ms. */
  const FastIntMin2: nat := 0x00A0
  const FastIntMax2: nat := 0x00F0

  const AdvIntervalMinMs: nat := 100
  const AdvIntervalVariationMs: nat := 10
  const AdvIntervalMaxMs: nat := AdvIntervalMinMs + AdvIntervalVariationMs

  /** Milliseconds to advertising-interval units: multiplication by 1.6
      with the result stored in an integer field. The result is the largest
      whole number of 0.625 ms units that fits in `ms`. */
  function MsToInterval(ms: nat): (units: nat)
    ensures units * 5 <= ms * 8 < (units + 1) * 5
  {
    ms * 16 / 10
  }

  /** 100 ms converts exactly to 160 units, and 110 ms to 176. */
  lemma SmartLockIntervals()
    ensures MsToInterval(AdvIntervalMinMs) == 160
    ensures MsToInterval(AdvIntervalMaxMs) == 176
  {
  }

  const BaseOptions: set<AdvOption> := {Connectable, OneTime, UseIdentity}

  /** The parameter set a build uses, with or without the connection
      filter. Both sets of a build share interval and base options and
      differ only in `FilterConn`; the smart_lock build uses its minimum
      interval for both bounds, below the maximum it defines. */
  function ParamsFor(build: Build, filtered: bool): (p: AdvParam)
    ensures FilterConn in p.options <==> filtered
    ensures p.options - {FilterConn} == BaseOptions
    ensures IntervalRangeMin <= p.intervalMin <= p.intervalMax <= IntervalRangeMax
    ensures build == Application ==> p.intervalMin == FastIntMin2 && p.intervalMax == FastIntMax2
    ensures build == SmartLock ==>
              p.intervalMin == p.intervalMax == MsToInterval(AdvIntervalMinMs) < MsToInterval(AdvIntervalMaxMs)
  {
    SmartLockIntervals();
    match build
    case Application =>
      if filtered then AdvParam({Connectable, FilterConn, OneTime, UseIdentity}, FastIntMin2, FastIntMax2)
      else AdvParam({Connectable, OneTime, UseIdentity}, FastIntMin2, FastIntMax2)
    case SmartLock =>
      var interval := MsToInterval(AdvIntervalMinMs);
      if filtered then AdvParam({Connectable, OneTime, UseIdentity, FilterConn}, interval, interval)
      else AdvParam({Connectable, OneTime, UseIdentity}, interval, interval)
  }

  /** The two parameter sets of a build differ only in `FilterConn`. */
  lemma ParamSetsDifferOnlyInFilter(build: Build)
    ensures ParamsFor(build, true).options == ParamsFor(build, false).options + {FilterConn}
    ensures ParamsFor(build, true).intervalMin == ParamsFor(build, false).intervalMin
    ensures ParamsFor(build, true).intervalMax == ParamsFor(build, false).intervalMax
  {
  }

  /** Advertising data of each build. */
  function AdData(build: Build): seq<AdField> {
    match build
    case Application => [Flags, CompleteName]
    case SmartLock => [Flags, CompleteName, LockServiceUuid]
  }

  /** Scan-response data of each build. */
  function ScanData(build: Build): seq<AdField> {
    match build
    case Application => [LockServiceUuid]
    case SmartLock => []
  }

  /** The three-way choice on the accept-list count. */
  function AdvertisingDecision(build: Build, allowedCnt: int): (d: AdvDecision)
    ensures d.NoAdvertising? <==> allowedCnt < 0
    ensures d.StartAdvertising? ==> d.call.param == ParamsFor(build, allowedCnt > 0)
    ensures d.StartAdvertising? ==>
              && (FilterConn in d.call.param.options <==> allowedCnt > 0)
              && d.call.param.options - {FilterConn} == BaseOptions
              && d.call.ad == AdData(build)
              && d.call.sd == ScanData(build)
    ensures d.StartAdvertising? && build == SmartLock ==> d.call.sd == []
    ensures d.StartAdvertising? ==> LockServiceUuid in d.call.ad + d.call.sd
  {
    if allowedCnt < 0 then NoAdvertising
    else if allowedCnt == 0 then StartAdvertising(AdvStart(ParamsFor(build, false), AdData(build), ScanData(build)))
    else StartAdvertising(AdvStart(ParamsFor(build, true), AdData(build), ScanData(build)))
  }

  /** One rebuild-and-advertise cycle: the accept-list setup, the decision
      on its count, and whether the lock ends up advertising (a start error
      is only logged, and nothing is retried). */
  datatype Cycle = Cycle(rebuild: Rebuild, decision: AdvDecision, advertising: bool)

  function CycleFrom(build: Build, rebuild: Rebuild, startErr: int): Cycle {
    var d := AdvertisingDecision(build, rebuild.count);
    Cycle(rebuild, d, d.StartAdvertising? && startErr == 0)
  }

  predicate Filtered(d: AdvDecision) {
    d.StartAdvertising? && FilterConn in d.call.param.options
  }

  predicate Open(d: AdvDecision) {
    d.StartAdvertising? && FilterConn !in d.call.param.options
  }

  /** The cycle as written. With a successful clear: no bonds gives open
      advertising, bonds that all add give filtered advertising to exactly
      those peers, and any failed add starts nothing, so a partly filled
      list is never advertised with. A clear that fails with a negative
      error starts nothing and attempts no add. */
  function AdvertiseWithAcceptList(build: Build, clearErr: int, bonds: seq<BondAdd>, startErr: int): (c: Cycle)
    ensures c.advertising <==> c.decision.StartAdvertising? && startErr == 0
    ensures clearErr < 0 ==> c.decision == NoAdvertising && c.rebuild.attempted == []
    ensures clearErr > 0 ==> Filtered(c.decision) && c.rebuild.attempted == []
    ensures clearErr == 0 && |bonds| == 0 ==> Open(c.decision)
    ensures clearErr == 0 && !AllAddsSucceed(bonds) ==> c.decision == NoAdvertising
    ensures clearErr == 0 && AllAddsSucceed(bonds) && |bonds| > 0 ==>
              Filtered(c.decision) && c.rebuild.programmed == Addrs(bonds)
  {
    CycleFrom(build, SetupAcceptList(clearErr, bonds), startErr)
  }

  /** As written, a clear that fails with a positive (protocol) error is
      taken for a count: filtered advertising starts although the clear
      failed and no peer was added in this cycle. The list keeps whatever
      the failed clear left, which the model does not track. */
  lemma PositiveClearErrorStartsFilteredAdvertising(build: Build, clearErr: int, bonds: seq<BondAdd>, startErr: int)
    requires clearErr > 0
    ensures var c := AdvertiseWithAcceptList(build, clearErr, bonds, startErr);
            && Filtered(c.decision)
            && (c.advertising <==> startErr == 0)
            && c.rebuild.attempted == []
            && c.rebuild.programmed == []
  {
  }

  /** The setup with every clear failure reported as a failure. */
  datatype Setup = ClearFailed(err: int) | Enumerated(rebuild: Rebuild)

  function SetupAcceptListChecked(clearErr: int, bonds: seq<BondAdd>): (s: Setup)
    ensures s.ClearFailed? <==> clearErr != 0
    ensures s.ClearFailed? ==> s.err == clearErr
    ensures s.Enumerated? ==> s.rebuild == SetupAcceptList(clearErr, bonds)
  {
    if clearErr != 0 then ClearFailed(clearErr) else Enumerated(ForeachBond(Fresh, bonds))
  }

  /** The cycle with the clear failure checked: any failed clear starts
      nothing, as does any failed add; filtered advertising only ever
      follows a list that holds every bonded peer. */
  function AdvertiseWithAcceptListChecked(build: Build, clearErr: int, bonds: seq<BondAdd>, startErr: int): (c: Cycle)
    ensures c.advertising <==> c.decision.StartAdvertising? && startErr == 0
    ensures clearErr != 0 ==> c.decision == NoAdvertising && c.rebuild.attempted == []
    ensures clearErr == 0 && |bonds| == 0 ==> Open(c.decision)
    ensures clearErr == 0 && !AllAddsSucceed(bonds) ==> c.decision == NoAdvertising
    ensures Filtered(c.decision) ==>
              clearErr == 0 && AllAddsSucceed(bonds) && |bonds| > 0 && c.rebuild.programmed == Addrs(bonds)
  {
    match SetupAcceptListChecked(clearErr, bonds)
    case ClearFailed(_) => Cycle(Rebuild(clearErr, [], []), NoAdvertising, false)
    case Enumerated(r) => CycleFrom(build, r, startErr)
  }

  /** The check changes nothing unless the clear fails with a positive
      error. */
  lemma CheckedAgreesUnlessClearErrorPositive(build: Build, clearErr: int, bonds: seq<BondAdd>, startErr: int)
    requires clearErr <= 0
    ensures AdvertiseWithAcceptListChecked(build, clearErr, bonds, startErr)
            == AdvertiseWithAcceptList(build, clearErr, bonds, startErr)
  {
  }
}

=== FILE: base.dfy ===
/** Shared vocabulary of the lock firmware model: fixed-width integers as
    they appear in the C structures, and an optional value. */
module Base {

  /** A value that may be absent. */
  datatype Option<+T> = None | Some(value: T)

  /** An unsigned 8-bit quantity (`uint8_t`). */
  type U8 = x: int | 0 <= x < 0x100

  /** An unsigned 16-bit quantity (`uint16_t`). */
  type U16 = x: int | 0 <= x < 0x1_0000

  /** One item of the digit queue: the keypad stores the pressed character
      in a `uint16_t` and the passkey collector reads it back as one. */
  type KeyCode = U16
}

=== FILE: keypad.dfy ===
/** The keypad event handler: a button event's `key_id` carries a row in
    bits 0-6 and a column in bits 7-13; the pair selects a character of the
    4x3 keypad table, and the character is routed either to the submit gate
    ('#') or to the digit queue (everything else). */
module Keypad {
  import opened Base

  /** The keypad layout, row by row. */
  const KeypadMapping: seq<seq<char>> :=
    [['1', '2', '3'],
     ['4', '5', '6'],
     ['7', '8', '9'],
     ['*', '0', '#']]

  /** The reserved key that signals the gate instead of entering the queue. */
  const SubmitKey: char := '#'

  const RowMask: bv16 := 0x007F
  const ColumnMask: bv16 := 0x3F80
  const ColumnShift: bv16 := 7

  /** A row and a column, each a 7-bit field of the key id. The handler
      stores them in `uint8_t` variables; they are kept here at the key id's
      16-bit width so that the masks and the shift apply directly, and both
      fit in 8 bits (see `FieldsFit`). */
  datatype KeyPosition = KeyPosition(row: bv16, column: bv16)

  predicate FieldsFit(p: KeyPosition) {
    p.row < 128 && p.column < 128
  }

  /** Splits a key id into its row and column fields. */
  function DecodeKeyId(keyId: bv16): (p: KeyPosition)
    ensures FieldsFit(p)
    ensures p.row == keyId % 128
    ensures p.column == keyId / 128 % 128
  {
    KeyPosition(keyId & RowMask, (keyId & ColumnMask) >> ColumnShift)
  }

  /** Packs a row and a column into a key id, the inverse of DecodeKeyId. */
  function EncodeKeyId(p: KeyPosition): (keyId: bv16)
    requires FieldsFit(p)
    ensures keyId < 0x4000
    ensures keyId == p.column * 128 + p.row
  {
    (p.column << ColumnShift) | p.row
  }

  /** Decoding reads back exactly the fields that were packed. */
  lemma DecodeEncode(p: KeyPosition)
    requires FieldsFit(p)
    ensures DecodeKeyId(EncodeKeyId(p)) == p
  {
  }

  /** Bits 14 and 15 never influence the decoded position, and they are
      the only bits decoding discards. */
  lemma HighBitsIgnored(keyId: bv16)
    ensures DecodeKeyId(keyId & 0x3FFF) == DecodeKeyId(keyId)
    ensures EncodeKeyId(DecodeKeyId(keyId)) == keyId & 0x3FFF
  {
  }

  /** Positions the table covers; the handler indexes the table without
      checking this. */
  predicate InTable(p: KeyPosition) {
    p.row < 4 && p.column < 3
  }

  /** The character printed on the key at `p`. */
  function KeyChar(p: KeyPosition): (c: char)
    requires InTable(p)
    ensures p.row < 3 ==> c as int == '1' as int + 3 * p.row as int + p.column as int
    ensures p.row == 3 ==> c == "*0#"[p.column]
  {
    KeypadMapping[p.row][p.column]
  }

  /** Where a character sits on the keypad, if it is printed on a key. */
  function PositionOf(c: char): Option<KeyPosition> {
    match c
    case '1' => Some(KeyPosition(0, 0))
    case '2' => Some(KeyPosition(0, 1))
    case '3' => Some(KeyPosition(0, 2))
    case '4' => Some(KeyPosition(1, 0))
    case '5' => Some(KeyPosition(1, 1))
    case '6' => Some(KeyPosition(1, 2))
    case '7' => Some(KeyPosition(2, 0))
    case '8' => Some(KeyPosition(2, 1))
    case '9' => Some(KeyPosition(2, 2))
    case '*' => Some(KeyPosition(3, 0))
    case '0' => Some(KeyPosition(3, 1))
    case '#' => Some(KeyPosition(3, 2))
    case _ => None
  }

  /** Every character printed on a key is found at a position that shows
      it, and only those twelve characters are found. */
  lemma PositionOfShowsChar(c: char)
    ensures PositionOf(c).Some? <==> c in "0123456789*#"
    ensures PositionOf(c).Some? ==> InTable(PositionOf(c).value) && KeyChar(PositionOf(c).value) == c
  {
  }

  /** Every position of the table is found again from its character, so
      the table is a bijection between its twelve positions and
      "0123456789*#". */
  lemma PositionOfKeyChar(p: KeyPosition)
    requires InTable(p)
    ensures PositionOf(KeyChar(p)) == Some(p)
  {
  }

  /** A keypad event as the event bus delivers it. */
  datatype ButtonEvent = ButtonEvent(keyId: bv16, pressed: bool)

  /** What the handler touches: the digit queue and the submit gate, the
      latter modelled by the number of times it has been given. */
  datatype KeypadState = KeypadState(queue: seq<KeyCode>, gateSignals: nat)

  /** The handler's effect together with its return value (whether the
      event is reported as consumed). */
  datatype Handled = Handled(state: KeypadState, consumed: bool)

  /** The handler may only see presses whose position lies in the table;
      releases are never decoded. */
  predicate Decodable(evt: ButtonEvent) {
    evt.pressed ==> InTable(DecodeKeyId(evt.keyId))
  }

  /** The character of a press. */
  function PressedChar(evt: ButtonEvent): char
    requires evt.pressed && Decodable(evt)
  {
    KeyChar(DecodeKeyId(evt.keyId))
  }

  /** Handles one button event. A press goes exactly one way: '#' gives
      the gate, any other key (including '*') is appended to the queue. A
      release does nothing. The event is never reported as consumed. */
  function HandleButtonEvent(evt: ButtonEvent, st: KeypadState): (h: Handled)
    requires Decodable(evt)
    ensures !h.consumed
    ensures st.queue <= h.state.queue && h.state.gateSignals >= st.gateSignals
    ensures (|h.state.queue| - |st.queue|) + (h.state.gateSignals - st.gateSignals)
            == if evt.pressed then 1 else 0
    ensures h.state.gateSignals > st.gateSignals <==> evt.pressed && PressedChar(evt) == SubmitKey
    ensures forall i :: |st.queue| <= i < |h.state.queue| ==>
              h.state.queue[i] == PressedChar(evt) as int && h.state.queue[i] != SubmitKey as int
  {
    if !evt.pressed then
      Handled(st, false)
    else
      var pressed := PressedChar(evt);
      if pressed == SubmitKey then
        Handled(KeypadState(st.queue, st.gateSignals + 1), false)
      else
        Handled(KeypadState(st.queue + [pressed as int], st.gateSignals), false)
  }

  predicate AllDecodable(evts: seq<ButtonEvent>) {
    forall i :: 0 <= i < |evts| ==> Decodable(evts[i])
  }

  /** Delivers a stream of events to the handler, one at a time, in order. */
  function HandleEvents(evts: seq<ButtonEvent>, st: KeypadState): KeypadState
    requires AllDecodable(evts)
  {
    if |evts| == 0 then st
    else HandleEvents(evts[1..], HandleButtonEvent(evts[0], st).state)
  }

  /** The characters typed by a stream of events: one per press, in order. */
  function TypedChars(evts: seq<ButtonEvent>): seq<char>
    requires AllDecodable(evts)
  {
    if |evts| == 0 then []
    else (if evts[0].pressed then [PressedChar(evts[0])] else []) + TypedChars(evts[1..])
  }

  /** The queue items typed characters should produce: every character but
      the submit key, in order. */
  function QueuedCodes(cs: seq<char>): seq<int> {
    if |cs| == 0 then []
    else (if cs[0] == SubmitKey then [] else [cs[0] as int]) + QueuedCodes(cs[1..])
  }

  function SubmitCount(cs: seq<char>): nat {
    if |cs| == 0 then 0
    else (if cs[0] == SubmitKey then 1 else 0) + SubmitCount(cs[1..])
  }

  /** Over any stream of events the queue receives the typed characters
      other than '#', in typing order (FIFO), and the gate is given once per
      '#' typed. */
  lemma {:induction false} HandleEventsRoutesTypedChars(evts: seq<ButtonEvent>, st: KeypadState)
    requires AllDecodable(evts)
    ensures HandleEvents(evts, st).queue == st.queue + QueuedCodes(TypedChars(evts))
    ensures HandleEvents(evts, st).gateSignals == st.gateSignals + SubmitCount(TypedChars(evts))
  {
    if |evts| > 0 {
      var evt := evts[0];
      var st' := HandleButtonEvent(evt, st).state;
      HandleEventsRoutesTypedChars(evts[1..], st');
      var rest := TypedChars(evts[1..]);
      if evt.pressed {
        var c := PressedChar(evt);
        assert TypedChars(evts) == [c] + rest;
        assert ([c] + rest)[1..] == rest;
        if c == SubmitKey {
          assert st'.queue == st.queue;
        } else {
          assert st'.queue == st.queue + [c as int];
        }
      } else {
        assert TypedChars(evts) == rest;
      }
    }
  }
}

=== FILE: lock_service.dfy ===
/** The write handler of the lock service's PIN characteristic: a write
    must be one byte, at offset zero, of value 0 or 1. Each check has its
    ATT error (Bluetooth Core Specification Vol 3, Part F, section
    3.4.1.1), and the first failing check in that order decides the reply. */
module LockService {
  import opened Base

  const AttErrInvalidOffset: U8 := 0x07
  const AttErrInvalidAttributeLen: U8 := 0x0D
  const AttErrValueNotAllowed: U8 := 0x13

  /** An ATT error as a handler returns it: negated. */
  function GattErr(att: U8): int {
    -(att as int)
  }

  /** The service's state. A write does not change it. */
  datatype LockState = LockState(buttonState: bool)

  /** The handler's return value (`len` on success, a negated ATT error
      otherwise) and the state it leaves. */
  datatype WriteReply = WriteReply(ret: int, state: LockState)

  /** The checks, in the order the handler makes them. */
  datatype WriteCheck = LengthCheck | OffsetCheck | ValueCheck

  const CheckOrder: seq<WriteCheck> := [LengthCheck, OffsetCheck, ValueCheck]

  predicate Violated(check: WriteCheck, value: seq<U8>, offset: U16) {
    match check
    case LengthCheck => |value| != 1
    case OffsetCheck => offset != 0
    case ValueCheck => |value| == 1 && value[0] != 0x00 && value[0] != 0x01
  }

  function ErrorOf(check: WriteCheck): U8 {
    match check
    case LengthCheck => AttErrInvalidAttributeLen
    case OffsetCheck => AttErrInvalidOffset
    case ValueCheck => AttErrValueNotAllowed
  }

  /** The first check of `checks` that the write violates. */
  function FirstViolated(checks: seq<WriteCheck>, value: seq<U8>, offset: U16): (r: Option<WriteCheck>)
    ensures r.None? <==> forall i :: 0 <= i < |checks| ==> !Violated(checks[i], value, offset)
    ensures r.Some? ==> r.value in checks && Violated(r.value, value, offset)
  {
    if |checks| == 0 then None
    else if Violated(checks[0], value, offset) then Some(checks[0])
    else FirstViolated(checks[1..], value, offset)
  }

  /** The write handler. It accepts exactly the one-byte writes of 0 or 1
      at offset zero, answering with the written length; otherwise it
      answers with the error of the first violated check, so a wrong length
      is reported even when the offset is also wrong. */
  function WriteLed(st: LockState, value: seq<U8>, offset: U16): (w: WriteReply)
    requires |value| < 0x1_0000
    ensures w.state == st
    ensures w.ret >= 0 <==> |value| == 1 && offset == 0 && value[0] <= 0x01
    ensures w.ret >= 0 ==> w.ret == |value| == 1
    ensures match FirstViolated(CheckOrder, value, offset)
            case None => w.ret == |value|
            case Some(check) => w.ret == GattErr(ErrorOf(check))
  {
    assert CheckOrder[1..] == [OffsetCheck, ValueCheck];
    assert CheckOrder[1..][1..] == [ValueCheck];
    if |value| != 1 then WriteReply(GattErr(AttErrInvalidAttributeLen), st)
    else if offset != 0 then
      assert FirstViolated(CheckOrder[1..], value, offset) == Some(OffsetCheck);
      WriteReply(GattErr(AttErrInvalidOffset), st)
    else
      var val := value[0];
      if val == 0x00 || val == 0x01 then WriteReply(|value|, st)
      else
        assert FirstViolated(CheckOrder[1..][1..], value, offset) == Some(ValueCheck);
        WriteReply(GattErr(AttErrValueNotAllowed), st)
  }

  /** The three error replies are distinct and all negative, so the caller
      can tell which check failed and can never mistake one for a length. */
  lemma ErrorRepliesDistinct(a: WriteCheck, b: WriteCheck)
    ensures GattErr(ErrorOf(a)) < 0
    ensures a != b ==> GattErr(ErrorOf(a)) != GattErr(ErrorOf(b))
  {
  }
}

=== FILE: pairing.dfy ===
/** The pairing-acceptance policy: a peer that declares no input and no
    output is refused, because with such a peer the association model of
    the Bluetooth Core Specification (Vol 3, Part H, section 2.3.5.1) can
    only be Just Works, which gives no protection against a
    man-in-the-middle. */
module Pairing {
  import opened Base

  /** The IO capability codes of the pairing feature exchange (Vol 3,
      Part H, section 3.5.1); codes 5 to 255 are reserved. */
  const IoDisplayOnly: U8 := 0
  const IoDisplayYesNo: U8 := 1
  const IoKeyboardOnly: U8 := 2
  const IoNoInputOutput: U8 := 3
  const IoKeyboardDisplay: U8 := 4

  /** The pairing features a peer announces; the policy is handed these. */
  datatype PairingFeat = PairingFeat(
    ioCapability: U8,
    oobDataFlag: U8,
    authReq: U8,
    maxEncKeySize: U8,
    initKeyDist: U8,
    respKeyDist: U8)

  /** The verdict returned to the stack: success lets pairing proceed. */
  datatype SecurityErr = Success | PairNotAllowed

  datatype IoCapability = DisplayOnly | DisplayYesNo | KeyboardOnly | NoInputNoOutput | KeyboardDisplay

  function DecodeIo(code: U8): Option<IoCapability> {
    if code == IoDisplayOnly then Some(DisplayOnly)
    else if code == IoDisplayYesNo then Some(DisplayYesNo)
    else if code == IoKeyboardOnly then Some(KeyboardOnly)
    else if code == IoNoInputOutput then Some(NoInputNoOutput)
    else if code == IoKeyboardDisplay then Some(KeyboardDisplay)
    else None
  }

  datatype Association = JustWorks | PasskeyEntry | NumericComparison

  /** The mapping of IO capabilities to the association model (Vol 3,
      Part H, section 2.3.5.1, Table 2.8), for the case where it applies:
      no out-of-band data and MITM protection requested. `secure` selects
      LE Secure Connections over LE legacy pairing. */
  function AssociationFor(initiator: IoCapability, responder: IoCapability, secure: bool): Association {
    if initiator == NoInputNoOutput || responder == NoInputNoOutput then JustWorks
    else match (initiator, responder)
      case (DisplayOnly, DisplayOnly) => JustWorks
      case (DisplayOnly, DisplayYesNo) => JustWorks
      case (DisplayYesNo, DisplayOnly) => JustWorks
      case (DisplayYesNo, DisplayYesNo) => if secure then NumericComparison else JustWorks
      case (DisplayYesNo, KeyboardDisplay) => if secure then NumericComparison else PasskeyEntry
      case (KeyboardDisplay, DisplayYesNo) => if secure then NumericComparison else PasskeyEntry
      case (KeyboardDisplay, KeyboardDisplay) => if secure then NumericComparison else PasskeyEntry
      case _ => PasskeyEntry
  }

  /** A peer whose capability leaves Just Works as the only outcome,
      whichever capability the local device has, in either role, and
      whichever pairing variant is used. */
  ghost predicate ForcesJustWorks(code: U8) {
    && DecodeIo(code).Some?
    && forall local: IoCapability, secure: bool ::
         && AssociationFor(DecodeIo(code).value, local, secure) == JustWorks
         && AssociationFor(local, DecodeIo(code).value, secure) == JustWorks
  }

  /** The policy: refuse a peer without input and output, accept any
      other declared capability. Only the IO capability is consulted. */
  function PairingAccept(feat: PairingFeat): (r: SecurityErr)
    ensures r == PairNotAllowed <==> DecodeIo(feat.ioCapability) == Some(NoInputNoOutput)
  {
    if feat.ioCapability == IoNoInputOutput then PairNotAllowed else Success
  }

  /** The verdict depends on the IO capability alone: two feature sets
      that agree on it get the same answer. */
  lemma VerdictDependsOnlyOnIoCapability(a: PairingFeat, b: PairingFeat)
    requires a.ioCapability == b.ioCapability
    ensures PairingAccept(a) == PairingAccept(b)
  {
  }

  /** The policy refuses exactly the peers that would force Just Works:
      every refused peer can only pair by Just Works, and every accepted
      peer with a defined capability pairs by passkey entry with the
      lock's keypad-only capability, in either role and in both LE legacy
      pairing and LE Secure Connections. */
  lemma RejectsExactlyForcedJustWorks(feat: PairingFeat)
    ensures PairingAccept(feat) == PairNotAllowed <==> ForcesJustWorks(feat.ioCapability)
    ensures PairingAccept(feat) == Success && DecodeIo(feat.ioCapability).Some? ==>
              forall secure: bool ::
                && AssociationFor(DecodeIo(feat.ioCapability).value, KeyboardOnly, secure) == PasskeyEntry
                && AssociationFor(KeyboardOnly, DecodeIo(feat.ioCapability).value, secure) == PasskeyEntry
  {
    var io := DecodeIo(feat.ioCapability);
    if io.Some? && io.value != NoInputNoOutput {
      assert AssociationFor(io.value, KeyboardOnly, false) == PasskeyEntry;
    }
  }
}

=== FILE: passkey.dfy ===
/** The passkey collector: six key codes taken from the digit queue are
    folded into one integer, the key at position i weighing 10^(5-i). */
module Passkey {
  import opened Base

  /** Number of keys that make up one passkey. */
  const PasskeyLength: nat := 6

  /** Character code of '0'; the fold subtracts it from every key. */
  const AsciiZero: int := 48

  /** The largest six-digit passkey. */
  const MaxPasskey: int := 999999

  function Pow10(n: nat): (r: nat)
    ensures r >= 1
    ensures n > 0 ==> r >= 10
  {
    if n == 0 then 1 else 10 * Pow10(n - 1)
  }

  predicate IsDigitCode(k: int) {
    '0' as int <= k <= '9' as int
  }

  predicate AllDigits(ks: seq<KeyCode>) {
    forall i :: 0 <= i < |ks| ==> IsDigitCode(ks[i])
  }

  /** The contribution of one key before weighting; negative for keys
      below '0' such as '*'. */
  function DigitValue(k: KeyCode): int {
    k - AsciiZero
  }

  /** The collector's running value once it has consumed `ks`, the first
      |ks| of the six keys: each new key adds its value times 10^(5-i). */
  function Accumulate(ks: seq<KeyCode>): int
    requires |ks| <= PasskeyLength
  {
    if |ks| == 0 then 0
    else Accumulate(ks[..|ks| - 1]) + DigitValue(ks[|ks| - 1]) * Pow10(PasskeyLength - |ks|)
  }

  /** Reference reading of a key sequence as a decimal numeral, most
      significant key first (Horner's rule). */
  function Decimal(ks: seq<KeyCode>): int {
    if |ks| == 0 then 0 else 10 * Decimal(ks[..|ks| - 1]) + DigitValue(ks[|ks| - 1])
  }

  /** After consuming k keys the running value is the numeral they spell,
      shifted left by the 6 - k positions still to come. */
  lemma {:induction false} AccumulateIsShiftedDecimal(ks: seq<KeyCode>)
    requires |ks| <= PasskeyLength
    ensures Accumulate(ks) == Decimal(ks) * Pow10(PasskeyLength - |ks|)
  {
    if |ks| > 0 {
      var init := ks[..|ks| - 1];
      var w := Pow10(PasskeyLength - |ks|);
      AccumulateIsShiftedDecimal(init);
      assert Pow10(PasskeyLength - |init|) == 10 * w;
      calc {
        Accumulate(ks);
        Decimal(init) * (10 * w) + DigitValue(ks[|ks| - 1]) * w;
        (10 * Decimal(init) + DigitValue(ks[|ks| - 1])) * w;
        Decimal(ks) * w;
      }
    }
  }

  lemma {:induction false} DecimalNonNegative(ks: seq<KeyCode>)
    requires forall i :: 0 <= i < |ks| ==> ks[i] >= '0' as int
    ensures Decimal(ks) >= 0
  {
    if |ks| > 0 {
      DecimalNonNegative(ks[..|ks| - 1]);
    }
  }

  /** Keys no greater than '9' (digits, and also '*') spell a numeral
      below 10^|ks|. */
  lemma {:induction false} DecimalBelowPower(ks: seq<KeyCode>)
    requires forall i :: 0 <= i < |ks| ==> ks[i] <= '9' as int
    ensures Decimal(ks) < Pow10(|ks|)
  {
    if |ks| > 0 {
      DecimalBelowPower(ks[..|ks| - 1]);
    }
  }

  /** Reading a concatenation: the left part is shifted by the length of
      the right part. */
  lemma {:induction false} DecimalAppend(a: seq<KeyCode>, b: seq<KeyCode>)
    ensures Decimal(a + b) == Decimal(a) * Pow10(|b|) + Decimal(b)
  {
    if |b| == 0 {
      assert a + b == a;
    } else {
      var b' := b[..|b| - 1];
      var x := b[|b| - 1];
      assert (a + b)[..|a + b| - 1] == a + b';
      assert (a + b)[|a + b| - 1] == x;
      DecimalAppend(a, b');
      calc {
        Decimal(a + b);
        10 * Decimal(a + b') + DigitValue(x);
        10 * (Decimal(a) * Pow10(|b'|) + Decimal(b')) + DigitValue(x);
        Decimal(a) * (10 * Pow10(|b'|)) + (10 * Decimal(b') + DigitValue(x));
        Decimal(a) * Pow10(|b|) + Decimal(b);
      }
    }
  }

  /** Six digit keys spell a numeral in 0..999999. */
  lemma DigitNumeralInRange(ks: seq<KeyCode>)
    requires |ks| == PasskeyLength
    ensures AllDigits(ks) ==> 0 <= Decimal(ks) <= MaxPasskey
  {
    if AllDigits(ks) {
      DecimalNonNegative(ks);
      DecimalBelowPower(ks);
      assert Pow10(PasskeyLength) == MaxPasskey + 1;
    }
  }

  /** The passkey the collector submits for six keys: Σ (c_i - 48)·10^(5-i),
      computed with an integer power. For digit keys it is the six-digit
      numeral they spell, so it lies in 0..999999. */
  function Passkey(ks: seq<KeyCode>): (p: int)
    requires |ks| == PasskeyLength
    ensures p == Decimal(ks)
    ensures AllDigits(ks) ==> 0 <= p <= MaxPasskey
  {
    AccumulateIsShiftedDecimal(ks);
    DigitNumeralInRange(ks);
    Accumulate(ks)
  }

  /** The collector does not reject non-digits, and a '*' in the first
      position (the only other key that reaches the queue) takes the
      running value below zero at the very first step. The C code keeps that
      value in a `uint32_t`, so the conversion there is undefined. The sum
      the fold stands for stays negative whatever the other five keys are,
      so no unsigned passkey represents it. */
  lemma StarFirstLeavesUnsignedRange(ks: seq<KeyCode>)
    requires |ks| == PasskeyLength
    requires ks[0] == '*' as int
    requires forall i :: 1 <= i < |ks| ==> ks[i] <= '9' as int
    ensures Accumulate(ks[..1]) < 0
    ensures Passkey(ks) < 0
  {
    assert ks[..1][..0] == [];
    var tail := ks[1..];
    assert ks == [ks[0]] + tail;
    DecimalAppend([ks[0]], tail);
    DecimalBelowPower(tail);
    assert Decimal([ks[0]]) == -6 by {
      assert [ks[0]][..0] == [];
    }
    assert Pow10(5) == 100000;
  }

  /** A '*' in a later position is silently absorbed: "1*0000" yields the
      same passkey as "040000". */
  lemma StarCollidesWithDigitEntry()
    ensures Passkey([49, 42, 48, 48, 48, 48]) == Passkey([48, 52, 48, 48, 48, 48]) == 40000
  {
    var star: seq<KeyCode> := [49, 42, 48, 48, 48, 48];
    var digits: seq<KeyCode> := [48, 52, 48, 48, 48, 48];
    DecimalAppend(star[..2], star[2..]);
    DecimalAppend(digits[..2], digits[2..]);
    assert star == star[..2] + star[2..];
    assert digits == digits[..2] + digits[2..];
    assert star[..2][..1] == [49];
    assert digits[..2][..1] == [48];
    assert [49][..0] == [] && [48][..0] == [];
    DecimalOfZeros(star[2..]);
    DecimalOfZeros(digits[2..]);
    assert Pow10(4) == 10000;
  }

  lemma {:induction false} DecimalOfZeros(ks: seq<KeyCode>)
    requires forall i :: 0 <= i < |ks| ==> ks[i] == AsciiZero
    ensures Decimal(ks) == 0
  {
    if |ks| > 0 {
      DecimalOfZeros(ks[..|ks| - 1]);
    }
  }

  /** The `%06u` rendering of a passkey that has at most `width` digits:
      `width` digit characters, zero padded, most significant first, that
      read back as `p`. */
  function Render(p: nat, width: nat): (s: seq<KeyCode>)
    requires p < Pow10(width)
    ensures |s| == width
    ensures AllDigits(s)
    ensures Decimal(s) == p
  {
    if width == 0 then []
    else
      LowDigitSplit(p, width);
      var init := Render(p / 10, width - 1);
      var k := AsciiZero + p % 10;
      DecimalSnoc(init, k);
      init + [k]
  }

  /** Splitting off the last decimal digit of a number with at most
      `width` digits leaves one with at most `width - 1`. */
  lemma LowDigitSplit(p: nat, width: nat)
    requires 0 < width && p < Pow10(width)
    ensures p / 10 < Pow10(width - 1)
    ensures 0 <= p % 10 < 10 && p == 10 * (p / 10) + p % 10
  {
  }

  /** Appending a key shifts the numeral one place and adds the key's value. */
  lemma DecimalSnoc(init: seq<KeyCode>, k: KeyCode)
    ensures Decimal(init + [k]) == 10 * Decimal(init) + DigitValue(k)
    ensures IsDigitCode(k) && AllDigits(init) ==> AllDigits(init + [k])
  {
    assert (init + [k])[..|init|] == init;
  }

  /** Rendering the numeral spelled by digit keys gives back those keys. */
  lemma {:induction false} RenderOfDecimal(ks: seq<KeyCode>)
    requires AllDigits(ks)
    ensures 0 <= Decimal(ks) < Pow10(|ks|)
    ensures Render(Decimal(ks), |ks|) == ks
  {
    DecimalNonNegative(ks);
    DecimalBelowPower(ks);
    if |ks| > 0 {
      var init := ks[..|ks| - 1];
      RenderOfDecimal(init);
      var d := Decimal(ks);
      assert d / 10 == Decimal(init);
      assert d % 10 == DigitValue(ks[|ks| - 1]);
      assert ks == init + [ks[|ks| - 1]];
    }
  }

  /** A digit passkey and its six-character rendering determine each other. */
  lemma PasskeyRenderRoundTrip(ks: seq<KeyCode>, p: nat)
    requires |ks| == PasskeyLength && AllDigits(ks)
    requires p <= MaxPasskey
    ensures Passkey(Render(p, PasskeyLength)) == p
    ensures Render(Passkey(ks), PasskeyLength) == ks
  {
    assert Pow10(PasskeyLength) == MaxPasskey + 1;
    RenderOfDecimal(ks);
  }

  /** State of one passkey-entry request. The collector blocks on the
      queue until six keys have arrived: with fewer it has consumed all it
      could and submitted nothing; with six it submits exactly one value and
      leaves every later key in the queue. */
  datatype Entry =
    | Waiting(taken: seq<KeyCode>)
    | Submitted(passkey: int, remaining: seq<KeyCode>)

  function PasskeyEntry(queue: seq<KeyCode>): (e: Entry)
    ensures e.Submitted? <==> |queue| >= PasskeyLength
    ensures e.Waiting? ==> e.taken == queue
    ensures e.Submitted? ==>
              && queue == queue[..PasskeyLength] + e.remaining
              && e.passkey == Decimal(queue[..PasskeyLength])
    ensures e.Submitted? && AllDigits(queue[..PasskeyLength]) ==> 0 <= e.passkey <= MaxPasskey
  {
    if |queue| < PasskeyLength then Waiting(queue)
    else Submitted(Passkey(queue[..PasskeyLength]), queue[PasskeyLength..])
  }

  /** The passkey-entry handler as the C loop runs it: one key per
      iteration, six iterations, then a single submission. */
  method AuthPasskeyEntry(queue: seq<KeyCode>) returns (e: Entry)
    ensures e == PasskeyEntry(queue)
  {
    var passkey := 0;
    var i := 0;
    while i < PasskeyLength && i < |queue|
      invariant 0 <= i <= PasskeyLength && i <= |queue|
      invariant passkey == Accumulate(queue[..i])
    {
      assert queue[..i + 1][..i] == queue[..i];
      passkey := DigitValue(queue[i]) * Pow10(PasskeyLength - 1 - i) + passkey;
      i := i + 1;
    }
    if i < PasskeyLength {
      e := Waiting(queue);
    } else {
      e := Submitted(passkey, queue[PasskeyLength..]);
    }
  }

  /** A seventh key arriving after the sixth belongs to the next attempt:
      it does not change the passkey already formed. */
  lemma LaterKeysDoNotAffectPasskey(queue: seq<KeyCode>, later: seq<KeyCode>)
    requires |queue| == PasskeyLength
    ensures PasskeyEntry(queue + later) == Submitted(PasskeyEntry(queue).passkey, later)
  {
    assert (queue + later)[..PasskeyLength] == queue;
    assert (queue + later)[PasskeyLength..] == later;
    assert queue[..PasskeyLength] == queue;
  }

  lemma PasskeyExamples()
    ensures Passkey([49, 50, 51, 52, 53, 54]) == 123456
    ensures Passkey([48, 48, 48, 48, 48, 48]) == 0
    ensures Passkey([57, 57, 57, 57, 57, 57]) == 999999
  {
    RenderAscending();
    RenderZero();
    RenderNines();
  }

  lemma RenderAscending()
    ensures Render(123456, 6) == [49, 50, 51, 52, 53, 54]
    ensures Passkey([49, 50, 51, 52, 53, 54]) == 123456
  {
    assert Pow10(PasskeyLength) == MaxPasskey + 1;
    assert Render(1, 1) == [49];
    assert Render(12, 2) == [49, 50];
    assert Render(123, 3) == [49, 50, 51];
    assert Render(1234, 4) == [49, 50, 51, 52];
    assert Render(12345, 5) == [49, 50, 51, 52, 53];
  }

  lemma RenderZero()
    ensures Render(0, 6) == [48, 48, 48, 48, 48, 48]
    ensures Passkey([48, 48, 48, 48, 48, 48]) == 0
  {
    assert Pow10(PasskeyLength) == MaxPasskey + 1;
    assert Render(0, 1) == [48];
    assert Render(0, 2) == [48, 48];
    assert Render(0, 3) == [48, 48, 48];
    assert Render(0, 4) == [48, 48, 48, 48];
    assert Render(0, 5) == [48, 48, 48, 48, 48];
  }

  lemma RenderNines()
    ensures Render(999999, 6) == [57, 57, 57, 57, 57, 57]
    ensures Passkey([57, 57, 57, 57, 57, 57]) == 999999
  {
    assert Pow10(PasskeyLength) == MaxPasskey + 1;
    assert Render(9, 1) == [57];
    assert Render(99, 2) == [57, 57];
    assert Render(999, 3) == [57, 57, 57];
    assert Render(9999, 4) == [57, 57, 57, 57];
    assert Render(99999, 5) == [57, 57, 57, 57, 57];
  }
}

=== FILE: pin_entry.dfy ===
/** The keypad and the passkey collector together: presses become queue
    items, and the collector turns the first six of them into a passkey. */
module PinEntry {
  import opened Base
  import opened Keypad
  import opened Passkey

  /** A keypad with an empty queue and an untouched gate. */
  const Idle: KeypadState := KeypadState([], 0)

  /** The press of the key showing the digit with code `k`. */
  function PressFor(k: KeyCode): (evt: ButtonEvent)
    requires IsDigitCode(k)
    ensures evt.pressed && Decodable(evt)
    ensures PressedChar(evt) as int == k
  {
    var c := k as char;
    PositionOfShowsChar(c);
    var p := PositionOf(c).value;
    DecodeEncode(p);
    ButtonEvent(EncodeKeyId(p), true)
  }

  /** The presses that type the digit codes `ks`, in order. */
  function PressesFor(ks: seq<KeyCode>): (evts: seq<ButtonEvent>)
    requires AllDigits(ks)
    ensures |evts| == |ks| && AllDecodable(evts)
  {
    if |ks| == 0 then [] else [PressFor(ks[0])] + PressesFor(ks[1..])
  }

  /** Typing digits puts exactly those digits into the queue, in order. */
  lemma {:induction false} PressesQueueTheirDigits(ks: seq<KeyCode>)
    requires AllDigits(ks)
    ensures QueuedCodes(TypedChars(PressesFor(ks))) == ks
  {
    if |ks| > 0 {
      var evts := PressesFor(ks);
      assert evts[1..] == PressesFor(ks[1..]);
      PressesQueueTheirDigits(ks[1..]);
      var c := PressedChar(evts[0]);
      assert TypedChars(evts) == [c] + TypedChars(evts[1..]);
      assert ([c] + TypedChars(evts[1..]))[1..] == TypedChars(evts[1..]);
      assert c != SubmitKey;
      assert ks == [ks[0]] + ks[1..];
    }
  }

  /** On an idle keypad, the presses for some digits leave exactly those
      digits in the queue. */
  lemma TypedDigitsAreQueued(ks: seq<KeyCode>)
    requires AllDigits(ks)
    ensures HandleEvents(PressesFor(ks), Idle).queue == ks
  {
    HandleEventsRoutesTypedChars(PressesFor(ks), Idle);
    PressesQueueTheirDigits(ks);
  }

  /** End to end: typing the six digits a peer displays for passkey `p`
      (its `%06u` rendering) on an idle keypad makes the collector submit
      exactly `p`, and nothing is left in the queue. */
  lemma TypedPasskeyIsSubmitted(p: nat)
    requires p <= MaxPasskey
    ensures var queue := HandleEvents(PressesFor(Render(p, PasskeyLength)), Idle).queue;
            PasskeyEntry(queue) == Submitted(p, [])
  {
    var ks := Render(p, PasskeyLength);
    TypedDigitsAreQueued(ks);
    PasskeyRenderRoundTrip(ks, p);
    assert ks[..PasskeyLength] == ks;
    assert ks[PasskeyLength..] == [];
  }

  /** Fewer than six digit presses never lead to a submission, whatever
      else (releases, '#') is interleaved. */
  lemma ShortEntryIsNeverSubmitted(evts: seq<ButtonEvent>)
    requires AllDecodable(evts)
    requires |QueuedCodes(TypedChars(evts))| < PasskeyLength
    ensures PasskeyEntry(HandleEvents(evts, Idle).queue).Waiting?
  {
    HandleEventsRoutesTypedChars(evts, Idle);
    assert HandleEvents(evts, Idle).queue == QueuedCodes(TypedChars(evts));
  }
}
